=== FILE: README.md ===
# landing_2_bronze in Dafny

A model of the row-level logic of the `landing_2_bronze` ETL script. The script copies
CSV files from a landing folder into a bronze table and adds lineage and
change-detection columns. The model covers the parts the script computes itself:

- **Business-key hash input** (`generate_md5_hash`). Every key column is first tested for
  being NULL or blank after `trim`, and the tests are folded with `&`. If every column is
  empty, each component becomes the literal `-1`. Otherwise each component is the
  column's own string, and a NULL component stays NULL. The components are passed to
  `concat_ws("#", ...)` in list order, and the result goes to `md5`.
- **Attribute hash input** (`generate_hdiff`). Each attribute is cast to a string and
  passed to `concat_ws("#", ...)` in list order. Nothing is substituted.
- **CSV file selection** (`load_csv_files`). Trailing `*` characters are stripped from the
  base path. Root entries whose lower-cased name ends in `.csv` are kept, whether or not
  they are directories. Then every directory of the root is listed once, and its entries
  whose name ends in `.csv` (case-sensitive) are kept. The result is `(None, 0)` when
  nothing is selected, and `(paths, len(paths))` otherwise.
- **The run's guard.** When nothing is selected, the run raises before the bronze table
  is truncated or written.
- **Lineage file name.** `original_file_name` is the longest tail of the input path
  that contains no `/`.

The engine's pieces are modelled as follows:

- A row is a map from column name to `Option<V>`, where `None` is SQL NULL.
- `cast(... as string)` of a non-string value is an abstract parameter `cast: V -> string`.
- `md5` is an abstract parameter `string -> string`.
- `concat_ws` skips NULL arguments.
- `trim` removes leading and trailing space characters.
- The storage is an abstract listing: a map from path to the entries `ls` returns, each
  with a name, a path and an `isDir` flag.

Modules:

- `Wrappers`: `Option` and `Result`.
- `Errors`: the exceptions.
- `Strings`: `endswith`, ASCII `lower`, `trim`, `rstrip`, join and split.
- `SparkSql`: `cast` of a nullable value and `concat_ws`.
- `Hashing`: the two hashes.
- `FileDiscovery`: `load_csv_files`.
- `LandingToBronze`: the instance's constants and schema, the file name, and the run's
  guard.

`concat_ws` (lines 134 and 154) drops a NULL argument entirely, so a NULL business-key or
attribute column leaves no empty field between separators. A NULL attribute therefore reads
as if it were not listed (`Hashing.NullAttributeIsDropped`), and two rows that differ only
in which of two adjacent attributes is NULL (or two with only NULL attributes between
them), such as `API_ID` and `GMT`, get the same `HASH_VALUE` input
(`Hashing.NullShiftCollision`).

## Model

| member | source | states |
|---|---|---|
| `Strings.LowerEndsWithCsv` | landing_2_bronze.py:229 | The lowered name ends in `.csv` iff its last four characters are `.` then `c`, `s`, `v`, each in either case. |
| `Strings.TrimEmptyIffBlank` | landing_2_bronze.py:112 | `trim(s) == ""` holds exactly when `s` consists of spaces only, so blank strings count as empty. |
| `Strings.RStrip` | landing_2_bronze.py:219 | `rstrip("*")` returns a prefix of the input that does not end in `*`, and only `*` characters were removed. |
| `Strings.RStripAbsorbs` | landing_2_bronze.py:219 | Stripping twice equals stripping once, and one more trailing `*` does not change the result. |
| `Strings.SplitJoin` | landing_2_bronze.py:134 | For a non-empty list of pieces none of which contains `#`, splitting the `#`-join at `#` gives back the pieces in order. (The empty list joins to `""`, which splits to `[""]`.) |
| `Strings.JoinSplit` | landing_2_bronze.py:134 | For every string, joining its `#`-split pieces with `#` gives back the string. |
| `SparkSql.NonNull` | landing_2_bronze.py:134 | The strings `concat_ws` joins are exactly the non-NULL arguments. |
| `SparkSql.NonNullAllPresent` | landing_2_bronze.py:134 | When no argument is NULL, `concat_ws` joins every argument, in order. |
| `SparkSql.ConcatWsSkipsNull` | landing_2_bronze.py:134 | Inserting a NULL argument anywhere leaves the `concat_ws` result unchanged. |
| `Hashing.Resolve` | landing_2_bronze.py:111-131 | Each listed column is looked up in list order. A column the row lacks is an `UnresolvedColumn` error naming a missing listed column. |
| `Hashing.AllNullConditionMeaning` | landing_2_bronze.py:114-120 | The `&`-fold starting from `None` is `None` only for an empty list. Otherwise it is true iff every listed column is NULL or blank. |
| `Hashing.KeyComponents` | landing_2_bronze.py:122-131 | There is one component per key column, in list order: `-1` when the condition holds, otherwise the column's cast value, with NULL kept as NULL. |
| `Hashing.SentinelWhenAllKeysEmpty` | landing_2_bronze.py:110-134 | If every key column is NULL or blank, the hash input is `|keys|` copies of `-1` joined with `#` (the empty string for an empty key list). |
| `Hashing.SingleKeySentinel` | landing_2_bronze.py:96-137 | With one empty key column, the hash input is `-1` and the hash is `md5("-1")`. |
| `Hashing.SingleKeyAsIs` | landing_2_bronze.py:96-137 | With one key column holding a non-blank value `x`, the hash is `md5` of that value's string, with no separator and no sentinel. |
| `Hashing.KeyPassThrough` | landing_2_bronze.py:122-134 | If some key column has a value, the business-key input equals the attribute input over the same columns. No `-1` is substituted, and NULLs stay NULL. |
| `Hashing.KeyMatchesHdiffIff` | landing_2_bronze.py:96-154 | For a non-empty key list, the business-key input equals the attribute input over the same columns iff not every column is empty. (With no columns both are `""`.) |
| `Hashing.HdiffAllNull` | landing_2_bronze.py:150-154 | If every attribute is NULL, the attribute input is the empty string, not a sentinel. |
| `Hashing.HdiffRecoversAttributes` | landing_2_bronze.py:150-154 | For a non-empty attribute list with no NULLs and no `#` in the values, splitting the attribute input at `#` gives each attribute's string, in list order. |
| `Hashing.KeyRecoversComponents` | landing_2_bronze.py:123-134 | The same holds for the business-key input when not every key column is empty. |
| `Hashing.HdiffOrderMatters` | landing_2_bronze.py:150-154 | When no listed attribute is NULL and no attribute's string contains `#`, swapping two attributes whose strings differ changes the attribute input. |
| `Hashing.KeyOrderMatters` | landing_2_bronze.py:123-134 | When no key column is NULL, no key string contains `#`, and not every key column is empty, swapping two key columns whose strings differ changes the business-key input. |
| `Hashing.NullAttributeIsDropped` | landing_2_bronze.py:150-154 | A NULL attribute listed once gives the same input as leaving that column out of the list. |
| `Hashing.NullShiftCollision` | landing_2_bronze.py:150-154 | Over the attribute list `[a, b]`, two different rows, one with `(NULL, x)` and one with `(x, NULL)`, get the same attribute input. |
| `Hashing.HashesDependOnListedColumnsOnly` | landing_2_bronze.py:96-154 | Rows that agree on the listed columns get equal `HASH_KEY` and equal `HASH_VALUE`, or the same error. |
| `FileDiscovery.PathsWhere` | landing_2_bronze.py:228-234 | A path is kept iff some entry with that path passes the test. |
| `FileDiscovery.PathsWhereAppend` | landing_2_bronze.py:228-242 | Filtering a concatenation of listings is the concatenation of the filtered parts, so the loops append one path per accepted entry, in listing order. |
| `FileDiscovery.PathsWhereSingle` | landing_2_bronze.py:229-231 | One entry contributes its path once if the test accepts it, and nothing otherwise. |
| `FileDiscovery.ScanFolders` | landing_2_bronze.py:236-242 | The scan succeeds iff every folder can be listed. It is then the concatenation, folder by folder in order, of each folder's exact-case `.csv` entries in listing order. Its paths are exactly those of such entries, and a failure names an unlistable folder. |
| `FileDiscovery.CsvFiles` | landing_2_bronze.py:219-242 | The selection is the root matches in listing order, followed by each root directory's exact-case `.csv` entries, folder by folder in root listing order. |
| `FileDiscovery.LoadCsvFiles` | landing_2_bronze.py:245-254 | The result is `(None, 0)` iff nothing was selected. Otherwise it is the selection with a count equal to its length. Listing errors propagate. |
| `FileDiscovery.CsvFilesSucceedsIff` | landing_2_bronze.py:225-238 | Selection succeeds iff the stripped root and each of its directory entries can be listed. |
| `FileDiscovery.SelectionMembership` | landing_2_bronze.py:228-242 | A path is selected iff it is a root entry with a lowered `.csv` name (directory or not), or an exact-case `.csv` entry of a directory directly under the root. |
| `FileDiscovery.TrailingGlobIgnored` | landing_2_bronze.py:219 | Appending `*` to the base path never changes the result. |
| `FileDiscovery.FolderTestImpliesBaseTest` | landing_2_bronze.py:229-240 | Every name the case-sensitive subfolder test accepts, the lowered root test accepts too. |
| `FileDiscovery.CaseAsymmetryExample` | landing_2_bronze.py:228-242 | `A.CSV` in the root is selected, `B.CSV` in a subfolder is not, and `c.csv` in the subfolder is selected after the root match. |
| `FileDiscovery.NothingSelectedExample` | landing_2_bronze.py:245-254 | A root with no `.csv` entry yields `(None, 0)`. |
| `LandingToBronze.HashColumnsInSchema` | landing_2_bronze.py:277-328 | Every business-key and attribute column is a schema column, so a row read with the schema resolves both lists. |
| `LandingToBronze.HashesDefinedOnSchemaRows` | landing_2_bronze.py:326-328 | Every row read with the schema gets both `HASH_KEY` and `HASH_VALUE`. |
| `LandingToBronze.MissingIataCodeHashesSentinel` | landing_2_bronze.py:326 | A NULL or blank `IATA_CODE` gives `HASH_KEY == md5("-1")`. |
| `LandingToBronze.IataCodeHashedAsIs` | landing_2_bronze.py:326 | Any other `IATA_CODE` string `c` gives `HASH_KEY == md5(c)`. |
| `LandingToBronze.OriginalFileName` | landing_2_bronze.py:168 | The file name is a suffix of the path with no `/`, and it is preceded by `/` or is the whole path (maximal). |
| `LandingToBronze.FileNameOfJoinedPath` | landing_2_bronze.py:168 | For an input-file string `folder/name` whose `name` contains no `/`, the file name is `name`. |
| `LandingToBronze.MetadataOfJoinedPath` | landing_2_bronze.py:167-171 | For an input-file string `folder/name` whose `name` contains no `/`, the row gets `file_path` = the landing path, `original_file_name` = `name`, `RSRC` = `CSV` and `LOAD_TYPE` = `FULL`. |
| `LandingToBronze.Process` | landing_2_bronze.py:297-336 | The printed file count is the selection's length, and 0 when nothing was selected. With no file selected, the run then raises `NoCsvFiles` and takes no action. A listing error raises before any count is printed. A non-empty selection succeeds, and a successful run has truncated the bronze table, then written the selection. |

## Left out

- Reading CSV files, header and delimiter handling, and permissive schema casting (246-250, 307-312) are done by the engine. The selected paths stand for the DataFrame built from them.
- `LandingToBronze.CastValue`: how the engine renders `LongType` and `DecimalType(15, 8)` values as strings is a parameter, not a fixed format.
- md5 is an uninterpreted function. Its 32-hex-digit output and its collision behaviour are not modelled. The order and NULL properties are therefore stated about the hash input, not the digest.
- The input-file string behind `original_file_name` (168) is taken as the engine reports it. That is the file's URI, so characters such as a space arrive percent-encoded (`my%20file.csv`). The model does not describe that encoding.
- `RECORD_ID` (`uuid()`, 170) is nondeterministic, so it is not modelled, and neither is its uniqueness.
- Delta writes and truncation (173-201) are storage I/O. `LandingToBronze.Process` records them only as the ordered actions `TruncateBronze` and `WriteBronze`. It does not model the resulting table, so the full-replace behaviour across repeated runs is not stated. It also does not model a write failing after the truncate.
- The re-read at 307-312 uses `df.inputFiles()`, whose order and duplicates are up to the engine. The model writes the selection as listed.
- Path strings built from the configuration constants (268-269), progress printing, the `try/except/finally` wrapper (340-345) and the display cell (361-363) are plumbing or logging.
- `Strings.Lower`: only ASCII `A`-`Z` are lowered. Python's `str.lower` also maps non-ASCII letters, and some of them to more than one character. The selection test compares only the last four characters with the ASCII `.csv`, so this is not expected to change which names match, but the model does not prove it.
- `Hashing.Resolve`: Spark rejects an unknown column when the expression is analysed, for the whole DataFrame. The model reports it per row, naming a missing listed column. Column names are matched exactly, while Spark's default resolution ignores case. Rows read with the schema carry the exact names, so the run is unaffected.
- `FileDiscovery.List`: only a missing path makes listing fail. Other storage errors, such as permissions, are not modelled.

=== FILE: errors.dfy ===
/** The exceptions the landing-to-bronze script can raise on the paths this model covers. */
module Errors {

  datatype Error =
      /** Spark cannot resolve a column named in a hash expression. */
    | UnresolvedColumn(column: string)
      /** The file-system listing of a path fails because nothing is there. */
    | PathNotFound(path: string)
      /** No CSV file was selected for the instance. */
    | NoCsvFiles(instance: string)
}

=== FILE: file_discovery.dfy ===
/** The listing-and-filter part of `load_csv_files`: which paths under the landing
    folder are handed to the CSV reader. The storage is an abstract listing. */
module FileDiscovery {
  import opened Wrappers
  import opened Errors
  import opened Strings

  /** One entry of a directory listing. */
  datatype Entry = Entry(name: string, path: string, isDir: bool)

  /** What `mssparkutils.fs.ls` sees: each listable path to its entries, in listing order. */
  type FileSystem = map<string, seq<Entry>>

  /** The pair `load_csv_files` returns. The selected paths stand for the DataFrame read
      from them; `None` is the Python `None` returned when nothing was selected. */
  datatype Loaded = Loaded(files: Option<seq<string>>, count: nat)

  /** `mssparkutils.fs.ls(path)`, which raises for a path that is not there. */
  function List(fs: FileSystem, path: string): (r: Result<seq<Entry>, Error>)
    ensures r.Success? <==> path in fs
    ensures r.Success? ==> r.value == fs[path]
    ensures r.Failure? ==> r.error == PathNotFound(path)
  {
    if path in fs then Success(fs[path]) else Failure(PathNotFound(path))
  }

  /** The directory actually listed: the argument without its trailing `*` characters. */
  function ListingRoot(base: string): string {
    RStrip(base, '*')
  }

  /** The base-folder test: the lowered name ends in `.csv`, whether or not the entry is
      a directory. */
  predicate IsBaseCsv(e: Entry) {
    EndsWith(Lower(e.name), ".csv")
  }

  /** The subfolder test: the name itself ends in `.csv`, case-sensitively. */
  predicate IsFolderCsv(e: Entry) {
    EndsWith(e.name, ".csv")
  }

  predicate IsDirEntry(e: Entry) {
    e.isDir
  }

  /** The paths of the entries `keep` accepts, in listing order. */
  function PathsWhere(entries: seq<Entry>, keep: Entry -> bool): (r: seq<string>)
    ensures |r| <= |entries|
    ensures forall p :: p in r <==> exists e :: e in entries && keep(e) && e.path == p
    decreases |entries|
  {
    if |entries| == 0 then []
    else
      var rest := PathsWhere(entries[1..], keep);
      assert entries == [entries[0]] + entries[1..];
      if keep(entries[0]) then [entries[0].path] + rest else rest
  }

  /** Filtering a concatenation filters each part: one path per accepted entry, in
      listing order, with nothing merged or dropped. */
  lemma {:induction false} PathsWhereAppend(a: seq<Entry>, b: seq<Entry>, keep: Entry -> bool)
    ensures PathsWhere(a + b, keep) == PathsWhere(a, keep) + PathsWhere(b, keep)
    decreases |a|
  {
    if |a| == 0 {
      assert a + b == b;
    } else {
      PathsWhereAppend(a[1..], b, keep);
      assert (a + b)[1..] == a[1..] + b;
    }
  }

  /** A single entry contributes its path exactly when it is accepted. */
  lemma PathsWhereSingle(e: Entry, keep: Entry -> bool)
    ensures PathsWhere([e], keep) == if keep(e) then [e.path] else []
  {
  }

  /** The parts of `xss`, one after another. */
  function Flatten(xss: seq<seq<string>>): (r: seq<string>)
    ensures forall p :: p in r <==> exists i :: 0 <= i < |xss| && p in xss[i]
    decreases |xss|
  {
    if |xss| == 0 then []
    else
      var rest := Flatten(xss[1..]);
      assert forall i :: 0 < i < |xss| ==> xss[i] == xss[1..][i - 1];
      xss[0] + rest
  }

  /** The `.csv` entries of one folder, by the subfolder test; none for a folder that
      cannot be listed. */
  function FolderMatches(fs: FileSystem, folder: string): seq<string> {
    if folder in fs then PathsWhere(fs[folder], IsFolderCsv) else []
  }

  /** Each folder's matches, in folder order. */
  function MatchesPerFolder(fs: FileSystem, folders: seq<string>): (r: seq<seq<string>>)
    ensures |r| == |folders| && forall i :: 0 <= i < |folders| ==> r[i] == FolderMatches(fs, folders[i])
  {
    seq(|folders|, i requires 0 <= i < |folders| => FolderMatches(fs, folders[i]))
  }

  /** The loop over `folders`: each one listed, its `.csv` entries appended, folder by
      folder. The first folder that cannot be listed aborts the scan. */
  function ScanFolders(fs: FileSystem, folders: seq<string>): (r: Result<seq<string>, Error>)
    ensures r.Success? <==> forall i :: 0 <= i < |folders| ==> folders[i] in fs
    ensures r.Success? ==> r.value == Flatten(MatchesPerFolder(fs, folders))
    ensures r.Success? ==> forall p :: p in r.value <==>
      exists f, e :: f in folders && f in fs && e in fs[f] && IsFolderCsv(e) && e.path == p
    ensures r.Failure? ==> exists i :: 0 <= i < |folders| && folders[i] !in fs && r.error == PathNotFound(folders[i])
    decreases |folders|
  {
    if |folders| == 0 then Success([])
    else
      match List(fs, folders[0])
      case Failure(e) => Failure(e)
      case Success(entries) =>
        match ScanFolders(fs, folders[1..])
        case Failure(e) => Failure(e)
        case Success(rest) =>
          assert folders == [folders[0]] + folders[1..];
          assert MatchesPerFolder(fs, folders)[1..] == MatchesPerFolder(fs, folders[1..]);
          Success(PathsWhere(entries, IsFolderCsv) + rest)
  }

  /** `csv_files`: matches in the base folder first, then the matches of each
      subfolder, folder by folder. */
  function CsvFiles(fs: FileSystem, base: string): (r: Result<seq<string>, Error>)
    ensures r.Success? ==> ListingRoot(base) in fs
    ensures r.Success? ==>
      var entries := fs[ListingRoot(base)];
      r.value == PathsWhere(entries, IsBaseCsv) + Flatten(MatchesPerFolder(fs, PathsWhere(entries, IsDirEntry)))
  {
    var root := ListingRoot(base);
    match List(fs, root)
    case Failure(e) => Failure(e)
    case Success(entries) =>
      match ScanFolders(fs, PathsWhere(entries, IsDirEntry))
      case Failure(e) => Failure(e)
      case Success(inFolders) =>
        Success(PathsWhere(entries, IsBaseCsv) + inFolders)
  }

  /** `load_csv_files(base_directory)`: `(None, 0)` when nothing is selected, otherwise
      the selection and its length. */
  function LoadCsvFiles(fs: FileSystem, base: string): (r: Result<Loaded, Error>)
    ensures r.Success? <==> CsvFiles(fs, base).Success?
    ensures r.Success? ==> (r.value.files.None? <==> CsvFiles(fs, base).value == [])
    ensures r.Success? ==> (r.value.files.None? <==> r.value.count == 0)
    ensures r.Success? && r.value.files.Some? ==>
      r.value.files.value == CsvFiles(fs, base).value && r.value.count == |r.value.files.value|
    ensures r.Failure? ==> r == Failure(CsvFiles(fs, base).error)
  {
    match CsvFiles(fs, base)
    case Failure(e) => Failure(e)
    case Success(paths) =>
      if |paths| > 0 then Success(Loaded(Some(paths), |paths|)) else Success(Loaded(None, 0))
  }

  /** The listing succeeds exactly when the root and each of its subdirectories can be
      listed. */
  lemma CsvFilesSucceedsIff(fs: FileSystem, base: string)
    ensures CsvFiles(fs, base).Success? <==>
      && ListingRoot(base) in fs
      && forall d :: d in fs[ListingRoot(base)] && d.isDir ==> d.path in fs
  {
    var root := ListingRoot(base);
    if root in fs {
      var folders := PathsWhere(fs[root], IsDirEntry);
      if forall d :: d in fs[root] && d.isDir ==> d.path in fs {
        forall i | 0 <= i < |folders|
          ensures folders[i] in fs
        {
          assert folders[i] in folders;
        }
      } else {
        var d :| d in fs[root] && d.isDir && d.path !in fs;
        assert d.path in folders;
      }
    }
  }

  /** Exactly the `.csv` entries of the root (any case, directories included) and the
      `.csv` entries of its immediate subdirectories (exact case) are selected; nothing
      deeper is ever looked at. */
  lemma SelectionMembership(fs: FileSystem, base: string, p: string)
    requires CsvFiles(fs, base).Success?
    ensures var root := ListingRoot(base);
      p in CsvFiles(fs, base).value <==>
        || (exists e :: e in fs[root] && IsBaseCsv(e) && e.path == p)
        || (exists d, e :: d in fs[root] && d.isDir && d.path in fs && e in fs[d.path] && IsFolderCsv(e) && e.path == p)
  {
    var root := ListingRoot(base);
    var entries := fs[root];
    var folders := PathsWhere(entries, IsDirEntry);
    var inFolders := ScanFolders(fs, folders).value;
    assert CsvFiles(fs, base).value == PathsWhere(entries, IsBaseCsv) + inFolders;
    if p in inFolders {
      var f, e :| f in folders && f in fs && e in fs[f] && IsFolderCsv(e) && e.path == p;
      var d :| d in entries && IsDirEntry(d) && d.path == f;
      assert d in fs[root] && d.isDir && d.path in fs && e in fs[d.path];
    }
    if exists d, e :: d in entries && d.isDir && d.path in fs && e in fs[d.path] && IsFolderCsv(e) && e.path == p {
      var d, e :| d in entries && d.isDir && d.path in fs && e in fs[d.path] && IsFolderCsv(e) && e.path == p;
      assert IsDirEntry(d) && d.path in folders;
      assert p in inFolders;
    }
  }

  /** Trailing `*` characters of the argument never matter. */
  lemma TrailingGlobIgnored(fs: FileSystem, base: string)
    ensures LoadCsvFiles(fs, base + "*") == LoadCsvFiles(fs, base)
  {
    RStripAbsorbs(base, '*');
  }

  /** The two tests differ in case-sensitivity only: a subfolder entry is selected only
      if its base-folder counterpart would be. */
  lemma FolderTestImpliesBaseTest(e: Entry)
    ensures IsFolderCsv(e) ==> IsBaseCsv(e)
  {
    LowerEndsWithCsv(e.name);
  }

  /** The root of the example listing: a file `A.CSV` and a folder `sub`. */
  const ExampleRoot: seq<Entry> := [Entry("A.CSV", "/landing/A.CSV", false), Entry("sub", "/landing/sub", true)]

  /** The folder `sub` of the example listing: `B.CSV` and `c.csv`. */
  const ExampleSub: seq<Entry> := [Entry("B.CSV", "/landing/sub/B.CSV", false), Entry("c.csv", "/landing/sub/c.csv", false)]

  lemma ExampleFilters()
    ensures PathsWhere(ExampleRoot, IsBaseCsv) == ["/landing/A.CSV"]
    ensures PathsWhere(ExampleRoot, IsDirEntry) == ["/landing/sub"]
    ensures PathsWhere(ExampleSub, IsFolderCsv) == ["/landing/sub/c.csv"]
  {
    assert Lower("A.CSV") == "a.csv";
    assert IsBaseCsv(ExampleRoot[0]) && !IsBaseCsv(ExampleRoot[1]);
    assert !IsFolderCsv(ExampleSub[0]) && IsFolderCsv(ExampleSub[1]);
  }

  const ExampleListing: FileSystem := map["/landing/" := ExampleRoot, "/landing/sub" := ExampleSub]

  lemma ExampleScan()
    ensures ScanFolders(ExampleListing, ["/landing/sub"]) == Success(["/landing/sub/c.csv"])
  {
    ExampleFilters();
    assert List(ExampleListing, "/landing/sub") == Success(ExampleSub);
  }

  lemma ExampleSelection()
    ensures CsvFiles(ExampleListing, "/landing/*") == Success(["/landing/A.CSV", "/landing/sub/c.csv"])
  {
    assert ListingRoot("/landing/*") == "/landing/";
    ExampleFilters();
    ExampleScan();
    assert List(ExampleListing, "/landing/") == Success(ExampleRoot);
    assert ["/landing/A.CSV"] + ["/landing/sub/c.csv"] == ["/landing/A.CSV", "/landing/sub/c.csv"];
  }

  /** The case asymmetry on a concrete listing: `A.CSV` in the root is selected,
      `B.CSV` in a subfolder is not, and `c.csv` there comes after the root match. */
  lemma CaseAsymmetryExample()
    ensures LoadCsvFiles(ExampleListing, "/landing/*") == Success(Loaded(Some(["/landing/A.CSV", "/landing/sub/c.csv"]), 2))
  {
    ExampleSelection();
  }

  /** A concrete listing with no `.csv` anywhere: the result is `(None, 0)`. */
  lemma NothingSelectedExample()
    ensures var fs: FileSystem := map["/landing/" := [Entry("readme.txt", "/landing/readme.txt", false)]];
      LoadCsvFiles(fs, "/landing/*") == Success(Loaded(None, 0))
  {
    assert ListingRoot("/landing/*") == "/landing/";
    LowerEndsWithCsv("readme.txt");
    assert !IsBaseCsv(Entry("readme.txt", "/landing/readme.txt", false));
  }
}

=== FILE: hashing.dfy ===
/** The two change-detection hashes: the business-key hash (`generate_md5_hash`) and
    the attribute hash (`generate_hdiff`). Both are Spark column expressions evaluated
    per row; here they are functions of one row. The engine's string rendering of a
    value (`cast`) and the digest (`md5`) are parameters the model leaves abstract. */
module Hashing {
  import opened Wrappers
  import opened Errors
  import opened Strings
  import opened SparkSql

  type ColumnName = string

  /** One row: column name to nullable value (`None` is NULL). */
  type Row<V> = map<ColumnName, Option<V>>

  /** The separator both hashes pass to `concat_ws`. */
  const Separator: char := '#'

  /** The business-key component used when every key column is empty. */
  const Sentinel: string := "-1"

  predicate Resolves<V>(row: Row<V>, cols: seq<ColumnName>) {
    forall i :: 0 <= i < |cols| ==> cols[i] in row
  }

  /** `F.col(c)` for each listed column, in order; Spark refuses the expression for a
      column the row does not have, naming the first such column. */
  function Resolve<V>(row: Row<V>, cols: seq<ColumnName>): (r: Result<seq<Option<V>>, Error>)
    ensures r.Success? <==> Resolves(row, cols)
    ensures r.Success? ==> |r.value| == |cols| && forall i :: 0 <= i < |cols| ==> r.value[i] == row[cols[i]]
    ensures r.Failure? ==> exists i :: 0 <= i < |cols| && cols[i] !in row && r.error == UnresolvedColumn(cols[i])
    decreases |cols|
  {
    if |cols| == 0 then Success([])
    else if cols[0] !in row then Failure(UnresolvedColumn(cols[0]))
    else
      match Resolve(row, cols[1..])
      case Failure(e) => Failure(e)
      case Success(rest) => Success([row[cols[0]]] + rest)
  }

  /** `is_empty(c)`: NULL, or only spaces once trimmed. Never NULL itself, because
      `isNull()` is true exactly where the trimmed comparison would be NULL. */
  predicate IsEmpty<V>(cast: V -> string, v: Option<V>) {
    v.None? || Trim(cast(v.value)) == ""
  }

  predicate AllEmpty<V>(cast: V -> string, vals: seq<Option<V>>) {
    forall i :: 0 <= i < |vals| ==> IsEmpty(cast, vals[i])
  }

  /** One iteration of the loop building `all_null_condition`: the first column sets it,
      each later column is and-ed in. */
  function AllEmptyStep<V>(cast: V -> string, acc: Option<bool>, v: Option<V>): Option<bool> {
    match acc
    case None => Some(IsEmpty(cast, v))
    case Some(b) => Some(b && IsEmpty(cast, v))
  }

  function FoldAllEmpty<V>(cast: V -> string, acc: Option<bool>, vals: seq<Option<V>>): Option<bool>
    decreases |vals|
  {
    if |vals| == 0 then acc else FoldAllEmpty(cast, AllEmptyStep(cast, acc, vals[0]), vals[1..])
  }

  /** `all_null_condition`, starting from `None` as the source does. */
  function AllNullCondition<V>(cast: V -> string, vals: seq<Option<V>>): Option<bool> {
    FoldAllEmpty(cast, None, vals)
  }

  lemma AllEmptyCons<V>(cast: V -> string, vals: seq<Option<V>>)
    requires |vals| > 0
    ensures AllEmpty(cast, vals) <==> IsEmpty(cast, vals[0]) && AllEmpty(cast, vals[1..])
  {
    if IsEmpty(cast, vals[0]) && AllEmpty(cast, vals[1..]) {
      forall i | 0 <= i < |vals|
        ensures IsEmpty(cast, vals[i])
      {
        if i > 0 { assert vals[i] == vals[1..][i - 1]; }
      }
    }
  }

  lemma {:induction false} FoldFromSome<V>(cast: V -> string, b: bool, vals: seq<Option<V>>)
    ensures FoldAllEmpty(cast, Some(b), vals) == Some(b && AllEmpty(cast, vals))
    decreases |vals|
  {
    if |vals| > 0 {
      FoldFromSome(cast, b && IsEmpty(cast, vals[0]), vals[1..]);
      AllEmptyCons(cast, vals);
    }
  }

  /** The fold computes "every listed column is empty", and is still `None` only when
      the list is empty. */
  lemma AllNullConditionMeaning<V>(cast: V -> string, vals: seq<Option<V>>)
    ensures AllNullCondition(cast, vals) == if |vals| == 0 then None else Some(AllEmpty(cast, vals))
  {
    if |vals| > 0 {
      FoldFromSome(cast, IsEmpty(cast, vals[0]), vals[1..]);
      AllEmptyCons(cast, vals);
    }
  }

  /** `processed_columns`: per key column, `when(all_null_condition, "-1")
      .otherwise(col).cast("string")`, appended in list order. */
  function KeyComponents<V>(cast: V -> string, cond: Option<bool>, vals: seq<Option<V>>): (r: seq<Option<string>>)
    ensures |r| == |vals|
    ensures forall i :: 0 <= i < |vals| ==>
      r[i] == if cond == Some(true) then Some(Sentinel) else CastToString(cast, vals[i])
    decreases |vals|
  {
    if |vals| == 0 then []
    else
      var c := if cond == Some(true) then Some(Sentinel) else CastToString(cast, vals[0]);
      [c] + KeyComponents(cast, cond, vals[1..])
  }

  /** The string `generate_md5_hash` feeds to `md5`. */
  function BusinessKeyInput<V>(cast: V -> string, row: Row<V>, keys: seq<ColumnName>): Result<string, Error> {
    match Resolve(row, keys)
    case Failure(e) => Failure(e)
    case Success(vals) =>
      Success(ConcatWs([Separator], KeyComponents(cast, AllNullCondition(cast, vals), vals)))
  }

  /** `HASH_KEY` of one row. */
  function HashKey<V>(md5: string -> string, cast: V -> string, row: Row<V>, keys: seq<ColumnName>): Result<string, Error> {
    match BusinessKeyInput(cast, row, keys)
    case Failure(e) => Failure(e)
    case Success(s) => Success(md5(s))
  }

  function CastAll<V>(cast: V -> string, vals: seq<Option<V>>): seq<Option<string>> {
    seq(|vals|, i requires 0 <= i < |vals| => CastToString(cast, vals[i]))
  }

  /** The string `generate_hdiff` feeds to `md5`: each attribute cast to string, no
      substitution of any kind. */
  function HdiffInput<V>(cast: V -> string, row: Row<V>, attrs: seq<ColumnName>): Result<string, Error> {
    match Resolve(row, attrs)
    case Failure(e) => Failure(e)
    case Success(vals) => Success(ConcatWs([Separator], CastAll(cast, vals)))
  }

  /** `HASH_VALUE` of one row. */
  function HashValue<V>(md5: string -> string, cast: V -> string, row: Row<V>, attrs: seq<ColumnName>): Result<string, Error> {
    match HdiffInput(cast, row, attrs)
    case Failure(e) => Failure(e)
    case Success(s) => Success(md5(s))
  }

  predicate AllKeysEmpty<V>(cast: V -> string, row: Row<V>, keys: seq<ColumnName>) {
    forall i :: 0 <= i < |keys| ==> keys[i] in row && IsEmpty(cast, row[keys[i]])
  }

  /** When every key column is NULL or blank, every component becomes "-1": the hash
      input is `|keys|` copies of "-1" joined with "#". */
  lemma SentinelWhenAllKeysEmpty<V>(cast: V -> string, row: Row<V>, keys: seq<ColumnName>)
    requires AllKeysEmpty(cast, row, keys)
    ensures BusinessKeyInput(cast, row, keys) == Success(Join([Separator], Repeat(Sentinel, |keys|)))
  {
    var vals := Resolve(row, keys).value;
    AllNullConditionMeaning(cast, vals);
    assert AllEmpty(cast, vals);
    var comps := KeyComponents(cast, AllNullCondition(cast, vals), vals);
    assert AllPresent(comps);
    NonNullAllPresent(comps);
    assert Values(comps) == Repeat(Sentinel, |keys|);
  }

  /** A single empty key column hashes the literal "-1". */
  lemma SingleKeySentinel<V>(md5: string -> string, cast: V -> string, row: Row<V>, key: ColumnName)
    requires key in row && IsEmpty(cast, row[key])
    ensures BusinessKeyInput(cast, row, [key]) == Success(Sentinel)
    ensures HashKey(md5, cast, row, [key]) == Success(md5(Sentinel))
  {
    SentinelWhenAllKeysEmpty(cast, row, [key]);
  }

  /** A single key column with a value is hashed as its own string. */
  lemma SingleKeyAsIs<V>(md5: string -> string, cast: V -> string, row: Row<V>, key: ColumnName, x: V)
    requires key in row && row[key] == Some(x) && !IsEmpty(cast, row[key])
    ensures BusinessKeyInput(cast, row, [key]) == Success(cast(x))
    ensures HashKey(md5, cast, row, [key]) == Success(md5(cast(x)))
  {
    assert [key][0] == key;
    KeyPassThrough(cast, row, [key]);
    var vals := Resolve(row, [key]).value;
    assert CastAll(cast, vals) == [Some(cast(x))];
    assert NonNull([Some(cast(x))]) == [cast(x)];
  }

  /** Without the all-empty condition the components are the plain string casts. */
  lemma KeyComponentsPassThrough<V>(cast: V -> string, vals: seq<Option<V>>)
    requires !AllEmpty(cast, vals)
    ensures KeyComponents(cast, AllNullCondition(cast, vals), vals) == CastAll(cast, vals)
  {
    AllNullConditionMeaning(cast, vals);
    var comps := KeyComponents(cast, AllNullCondition(cast, vals), vals);
    forall k | 0 <= k < |vals|
      ensures comps[k] == CastAll(cast, vals)[k]
    {
    }
  }

  /** When some key column has a value, no substitution happens: the business-key input
      is exactly the attribute-style input over the same columns, so each component is
      that column's own string, and a NULL column stays NULL (and `concat_ws` skips it). */
  lemma KeyPassThrough<V>(cast: V -> string, row: Row<V>, keys: seq<ColumnName>)
    requires Resolves(row, keys)
    requires !AllKeysEmpty(cast, row, keys)
    ensures BusinessKeyInput(cast, row, keys) == HdiffInput(cast, row, keys)
  {
    var vals := Resolve(row, keys).value;
    assert !AllEmpty(cast, vals) by {
      var i :| 0 <= i < |keys| && !IsEmpty(cast, row[keys[i]]);
      assert vals[i] == row[keys[i]];
    }
    KeyComponentsPassThrough(cast, vals);
  }

  /** The two inputs over the same columns coincide exactly when not every column is
      empty: the sentinel branch is the only difference between them. */
  lemma KeyMatchesHdiffIff<V>(cast: V -> string, row: Row<V>, keys: seq<ColumnName>)
    requires |keys| > 0 && Resolves(row, keys)
    ensures BusinessKeyInput(cast, row, keys) == HdiffInput(cast, row, keys) <==> !AllKeysEmpty(cast, row, keys)
  {
    if AllKeysEmpty(cast, row, keys) {
      SentinelWhenAllKeysEmpty(cast, row, keys);
      var key := Join([Separator], Repeat(Sentinel, |keys|));
      JoinStartsWithFirst([Separator], Repeat(Sentinel, |keys|));
      assert key[0] == '-';
      var vals := Resolve(row, keys).value;
      var parts := NonNull(CastAll(cast, vals));
      forall i, k | 0 <= i < |parts| && 0 <= k < |parts[i]|
        ensures parts[i][k] in {' ', Separator}
      {
        assert Some(parts[i]) in CastAll(cast, vals);
        var j :| 0 <= j < |vals| && CastAll(cast, vals)[j] == Some(parts[i]);
        assert IsEmpty(cast, vals[j]);
        TrimEmptyIffBlank(parts[i]);
      }
      JoinCharacters([Separator], parts, {' ', Separator});
      var attr := Join([Separator], parts);
      assert attr == [] || attr[0] != '-';
      assert key != attr;
    } else {
      KeyPassThrough(cast, row, keys);
    }
  }

  /** Every attribute NULL: the attribute input is the empty string, not a sentinel. */
  lemma HdiffAllNull<V>(cast: V -> string, row: Row<V>, attrs: seq<ColumnName>)
    requires forall i :: 0 <= i < |attrs| ==> attrs[i] in row && row[attrs[i]].None?
    ensures HdiffInput(cast, row, attrs) == Success("")
  {
    var vals := Resolve(row, attrs).value;
    var cs := CastAll(cast, vals);
    NonNullAllNull(cs);
  }

  /** Attributes with a value and no "#" in their string form can be read back from the
      attribute input, one per listed column, in list order. */
  lemma HdiffRecoversAttributes<V>(cast: V -> string, row: Row<V>, attrs: seq<ColumnName>)
    requires |attrs| > 0
    requires forall i :: 0 <= i < |attrs| ==> attrs[i] in row && row[attrs[i]].Some?
    requires forall i :: 0 <= i < |attrs| ==> Separator !in cast(row[attrs[i]].value)
    ensures HdiffInput(cast, row, attrs).Success?
    ensures var parts := Split(HdiffInput(cast, row, attrs).value, Separator);
      |parts| == |attrs| && forall i :: 0 <= i < |attrs| ==> parts[i] == cast(row[attrs[i]].value)
  {
    var vals := Resolve(row, attrs).value;
    var cs := CastAll(cast, vals);
    assert AllPresent(cs);
    NonNullAllPresent(cs);
    SplitJoin(Values(cs), Separator);
  }

  /** The same for the business key when not every key column is empty. */
  lemma KeyRecoversComponents<V>(cast: V -> string, row: Row<V>, keys: seq<ColumnName>)
    requires forall i :: 0 <= i < |keys| ==> keys[i] in row && row[keys[i]].Some?
    requires forall i :: 0 <= i < |keys| ==> Separator !in cast(row[keys[i]].value)
    requires !AllKeysEmpty(cast, row, keys)
    ensures BusinessKeyInput(cast, row, keys).Success?
    ensures var parts := Split(BusinessKeyInput(cast, row, keys).value, Separator);
      |parts| == |keys| && forall i :: 0 <= i < |keys| ==> parts[i] == cast(row[keys[i]].value)
  {
    KeyPassThrough(cast, row, keys);
    HdiffRecoversAttributes(cast, row, keys);
  }

  function Swap<T>(s: seq<T>, i: nat, j: nat): (r: seq<T>)
    requires i < |s| && j < |s|
  {
    s[i := s[j]][j := s[i]]
  }

  /** Column order is significant: exchanging two attributes whose values differ changes
      the attribute input. */
  lemma HdiffOrderMatters<V>(cast: V -> string, row: Row<V>, attrs: seq<ColumnName>, i: nat, j: nat)
    requires i < |attrs| && j < |attrs|
    requires forall k :: 0 <= k < |attrs| ==> attrs[k] in row && row[attrs[k]].Some?
    requires forall k :: 0 <= k < |attrs| ==> Separator !in cast(row[attrs[k]].value)
    requires cast(row[attrs[i]].value) != cast(row[attrs[j]].value)
    ensures HdiffInput(cast, row, Swap(attrs, i, j)) != HdiffInput(cast, row, attrs)
  {
    var swapped := Swap(attrs, i, j);
    HdiffRecoversAttributes(cast, row, attrs);
    HdiffRecoversAttributes(cast, row, swapped);
    assert swapped[i] == attrs[j];
  }

  /** Exchanging two key columns keeps a non-empty one among them. */
  lemma SwapKeepsNonEmptyKey<V>(cast: V -> string, row: Row<V>, keys: seq<ColumnName>, i: nat, j: nat)
    requires i < |keys| && j < |keys|
    requires !AllKeysEmpty(cast, row, keys)
    ensures !AllKeysEmpty(cast, row, Swap(keys, i, j))
  {
    var swapped := Swap(keys, i, j);
    var k :| 0 <= k < |keys| && !(keys[k] in row && IsEmpty(cast, row[keys[k]]));
    var k' := if k == i then j else if k == j then i else k;
    assert swapped[k'] == keys[k];
  }

  /** The same for the business key, which is order sensitive whenever it is not the
      all-sentinel string. */
  lemma KeyOrderMatters<V>(cast: V -> string, row: Row<V>, keys: seq<ColumnName>, i: nat, j: nat)
    requires i < |keys| && j < |keys|
    requires forall k :: 0 <= k < |keys| ==> keys[k] in row && row[keys[k]].Some?
    requires forall k :: 0 <= k < |keys| ==> Separator !in cast(row[keys[k]].value)
    requires cast(row[keys[i]].value) != cast(row[keys[j]].value)
    requires !AllKeysEmpty(cast, row, keys)
    ensures BusinessKeyInput(cast, row, Swap(keys, i, j)) != BusinessKeyInput(cast, row, keys)
  {
    var swapped := Swap(keys, i, j);
    SwapKeepsNonEmptyKey(cast, row, keys, i, j);
    assert Resolves(row, swapped) by {
      forall k | 0 <= k < |swapped|
        ensures swapped[k] in row
      {
        assert swapped[k] in keys;
      }
    }
    KeyPassThrough(cast, row, keys);
    KeyPassThrough(cast, row, swapped);
    HdiffOrderMatters(cast, row, keys, i, j);
  }

  lemma ResolveConcat<V>(row: Row<V>, a: seq<ColumnName>, b: seq<ColumnName>)
    requires Resolves(row, a) && Resolves(row, b)
    ensures Resolves(row, a + b)
    ensures Resolve(row, a + b).value == Resolve(row, a).value + Resolve(row, b).value
  {
    assert Resolves(row, a + b) by {
      forall k | 0 <= k < |a + b|
        ensures (a + b)[k] in row
      {
        if k >= |a| { assert (a + b)[k] == b[k - |a|]; }
      }
    }
  }

  lemma CastAllConcat<V>(cast: V -> string, a: seq<Option<V>>, b: seq<Option<V>>)
    ensures CastAll(cast, a + b) == CastAll(cast, a) + CastAll(cast, b)
  {
  }

  /** Resolving with attribute `i` set to NULL puts a NULL between the values of the
      columns before and after it. */
  lemma ResolveNulled<V>(row: Row<V>, attrs: seq<ColumnName>, i: nat)
    requires i < |attrs| && Resolves(row, attrs)
    requires attrs[i] !in attrs[..i] + attrs[i + 1..]
    ensures Resolves(row, attrs[..i]) && Resolves(row, attrs[i + 1..]) && Resolves(row, attrs[..i] + attrs[i + 1..])
    ensures var pre, post := Resolve(row, attrs[..i]).value, Resolve(row, attrs[i + 1..]).value;
      && Resolve(row[attrs[i] := None], attrs).value == pre + [None] + post
      && Resolve(row, attrs[..i] + attrs[i + 1..]).value == pre + post
  {
    var nulled := row[attrs[i] := None];
    var pre, post := attrs[..i], attrs[i + 1..];
    assert attrs == pre + [attrs[i]] + post;
    assert AgreeOn(nulled, row, pre) by {
      forall k | 0 <= k < |pre|
        ensures pre[k] != attrs[i]
      {
        assert pre[k] in pre + post;
      }
    }
    assert AgreeOn(nulled, row, post) by {
      forall k | 0 <= k < |post|
        ensures post[k] != attrs[i]
      {
        assert post[k] in pre + post;
      }
    }
    ResolveAgrees(nulled, row, pre);
    ResolveAgrees(nulled, row, post);
    ResolveConcat(nulled, pre, [attrs[i]]);
    ResolveConcat(nulled, pre + [attrs[i]], post);
    ResolveConcat(row, pre, post);
    assert Resolve(nulled, [attrs[i]]).value == [None];
  }

  /** A NULL attribute leaves no trace in the attribute input: it reads as if the column
      were not listed at all. */
  lemma NullAttributeIsDropped<V>(cast: V -> string, row: Row<V>, attrs: seq<ColumnName>, i: nat)
    requires i < |attrs| && Resolves(row, attrs)
    requires attrs[i] !in attrs[..i] + attrs[i + 1..]
    ensures HdiffInput(cast, row[attrs[i] := None], attrs) == HdiffInput(cast, row, attrs[..i] + attrs[i + 1..])
  {
    ResolveNulled(row, attrs, i);
    var preVals, postVals := Resolve(row, attrs[..i]).value, Resolve(row, attrs[i + 1..]).value;
    var preCast, postCast := CastAll(cast, preVals), CastAll(cast, postVals);
    CastAllConcat(cast, preVals + [None], postVals);
    CastAllConcat(cast, preVals, [None]);
    CastAllConcat(cast, preVals, postVals);
    assert CastAll(cast, [None]) == [None];
    assert CastAll(cast, preVals + [None] + postVals) == preCast + [None] + postCast;
    ConcatWsSkipsNull([Separator], preCast, postCast);
    assert HdiffInput(cast, row[attrs[i] := None], attrs) == Success(ConcatWs([Separator], preCast + [None] + postCast));
    assert HdiffInput(cast, row, attrs[..i] + attrs[i + 1..]) == Success(ConcatWs([Separator], preCast + postCast));
  }

  /** Two rows that differ only in which of two attributes is NULL, the other holding the
      same string, get the same attribute input: moving a NULL goes undetected. */
  lemma NullShiftCollision<V>(cast: V -> string, a: ColumnName, b: ColumnName, x: V, y: V)
    requires a != b && cast(x) == cast(y)
    ensures var row1: Row<V> := map[a := None, b := Some(x)];
      var row2: Row<V> := map[a := Some(y), b := None];
      row1 != row2 && HdiffInput(cast, row1, [a, b]) == HdiffInput(cast, row2, [a, b])
  {
    var row1: Row<V> := map[a := None, b := Some(x)];
    var row2: Row<V> := map[a := Some(y), b := None];
    assert row1[a] != row2[a];
    assert CastAll(cast, Resolve(row1, [a, b]).value) == [None] + [Some(cast(x))] + [];
    assert CastAll(cast, Resolve(row2, [a, b]).value) == [Some(cast(y))] + [None] + [];
    ConcatWsSkipsNull([Separator], [], [Some(cast(x))]);
    ConcatWsSkipsNull([Separator], [Some(cast(y))], []);
    assert HdiffInput(cast, row1, [a, b]) == Success(cast(x));
    assert [Some(cast(y))] + [] == [Some(cast(y))];
    assert NonNull([Some(cast(y))]) == [cast(y)];
    assert HdiffInput(cast, row2, [a, b]) == Success(cast(y));
  }

  /** Rows that agree on the listed columns agree on both hashes: the hashes depend on
      those columns only. */
  ghost predicate AgreeOn<V>(row1: Row<V>, row2: Row<V>, cols: seq<ColumnName>) {
    forall i :: 0 <= i < |cols| ==>
      (cols[i] in row1 <==> cols[i] in row2) && (cols[i] in row1 ==> row1[cols[i]] == row2[cols[i]])
  }

  lemma {:induction false} ResolveAgrees<V>(row1: Row<V>, row2: Row<V>, cols: seq<ColumnName>)
    requires AgreeOn(row1, row2, cols)
    ensures Resolve(row1, cols) == Resolve(row2, cols)
    decreases |cols|
  {
    if |cols| > 0 && cols[0] in row1 {
      ResolveAgrees(row1, row2, cols[1..]);
    }
  }

  lemma HashesDependOnListedColumnsOnly<V>(md5: string -> string, cast: V -> string, row1: Row<V>, row2: Row<V>, cols: seq<ColumnName>)
    requires AgreeOn(row1, row2, cols)
    ensures HashKey(md5, cast, row1, cols) == HashKey(md5, cast, row2, cols)
    ensures HashValue(md5, cast, row1, cols) == HashValue(md5, cast, row2, cols)
  {
    ResolveAgrees(row1, row2, cols);
  }
}

=== FILE: landing_to_bronze.dfy ===
/** The landing-to-bronze run for the AIRPORTS instance: its constants and schema, the
    lineage file name, the two hash columns, and the guard that stops a run with no
    input before the bronze table is touched. */
module LandingToBronze {
  import opened Wrappers
  import opened Errors
  import opened Strings
  import Hashing
  import FileDiscovery

  const InstanceName: string := "AIRPORTS"

  /** The `RSRC` column. */
  const DataSource: string := "CSV"

  /** The `LOAD_TYPE` column. */
  const DeliveryMode: string := "FULL"

  datatype FieldType = LongType | StringType | DecimalType(precision: nat, scale: nat)

  datatype Field = Field(name: string, fieldType: FieldType, nullable: bool)

  /** The explicit schema the CSV files are re-read with. */
  const Schema: seq<Field> := [
    Field("API_ID", LongType, true),
    Field("GMT", LongType, true),
    Field("AIRPORT_ID", LongType, true),
    Field("IATA_CODE", StringType, true),
    Field("CITY_IATA_CODE", StringType, true),
    Field("ICAO_CODE", StringType, true),
    Field("COUNTRY_ISO2", StringType, true),
    Field("GEONAME_ID", LongType, true),
    Field("LATITUDE", DecimalType(15, 8), true),
    Field("LONGITUDE", DecimalType(15, 8), true),
    Field("AIRPORT_NAME", StringType, true),
    Field("COUNTRY_NAME", StringType, true),
    Field("PHONE_NUMBER", StringType, true),
    Field("TIMEZONE", StringType, true)
  ]

  /** The business key of the instance. */
  const BusinessKeyColumns: seq<string> := ["IATA_CODE"]

  /** The attributes tracked for change detection, in hashing order. */
  const AttributeColumns: seq<string> := [
    "API_ID", "GMT", "AIRPORT_ID", "CITY_IATA_CODE", "ICAO_CODE", "COUNTRY_ISO2",
    "GEONAME_ID", "LATITUDE", "LONGITUDE", "AIRPORT_NAME", "COUNTRY_NAME",
    "PHONE_NUMBER", "TIMEZONE"
  ]

  /** A cell after the schema is applied. A decimal is its unscaled integer. */
  datatype Value = StringValue(s: string) | LongValue(n: int) | DecimalValue(unscaled: int)

  type Row = Hashing.Row<Value>

  /** `cast(v as string)`: a string is unchanged; numbers go through the engine's own
      rendering `render`, which the model does not fix. */
  function CastValue(render: Value -> string): Value -> string {
    (v: Value) => if v.StringValue? then v.s else render(v)
  }

  /** A row produced by reading with the schema carries every schema column. */
  predicate HasSchemaColumns(row: Row) {
    forall i :: 0 <= i < |Schema| ==> Schema[i].name in row
  }

  /** Both hash column lists name schema columns only, so a row read with the schema
      always resolves them. */
  lemma HashColumnsInSchema(row: Row)
    requires HasSchemaColumns(row)
    ensures Hashing.Resolves(row, BusinessKeyColumns)
    ensures Hashing.Resolves(row, AttributeColumns)
  {
    assert BusinessKeyColumns[0] == Schema[3].name;
    var position := [0, 1, 2, 4, 5, 6, 7, 8, 9, 10, 11, 12, 13];
    forall i | 0 <= i < |AttributeColumns|
      ensures AttributeColumns[i] in row
    {
      assert AttributeColumns[i] == Schema[position[i]].name;
    }
  }

  /** The two hash columns of one row. */
  datatype Hashes = Hashes(hashKey: string, hashValue: string)

  /** `HASH_KEY` and `HASH_VALUE` as added by the run. */
  function ComputeHashes(md5: string -> string, render: Value -> string, row: Row): Result<Hashes, Error> {
    var cast := CastValue(render);
    match Hashing.HashKey(md5, cast, row, BusinessKeyColumns)
    case Failure(e) => Failure(e)
    case Success(key) =>
      match Hashing.HashValue(md5, cast, row, AttributeColumns)
      case Failure(e) => Failure(e)
      case Success(value) => Success(Hashes(key, value))
  }

  /** Rows read with the schema always get both hashes. */
  lemma HashesDefinedOnSchemaRows(md5: string -> string, render: Value -> string, row: Row)
    requires HasSchemaColumns(row)
    ensures ComputeHashes(md5, render, row).Success?
  {
    HashColumnsInSchema(row);
  }

  /** A NULL or blank `IATA_CODE` gives the hash of the literal "-1". */
  lemma MissingIataCodeHashesSentinel(md5: string -> string, render: Value -> string, row: Row)
    requires "IATA_CODE" in row
    requires row["IATA_CODE"].None? || (row["IATA_CODE"].value.StringValue? && IsBlank(row["IATA_CODE"].value.s))
    ensures Hashing.HashKey(md5, CastValue(render), row, BusinessKeyColumns) == Success(md5("-1"))
  {
    var cast := CastValue(render);
    if row["IATA_CODE"].Some? {
      TrimEmptyIffBlank(cast(row["IATA_CODE"].value));
    }
    Hashing.SingleKeySentinel(md5, cast, row, "IATA_CODE");
  }

  /** Any other `IATA_CODE` is hashed as it is, with no separator and no sentinel. */
  lemma IataCodeHashedAsIs(md5: string -> string, render: Value -> string, row: Row, code: string)
    requires "IATA_CODE" in row && row["IATA_CODE"] == Some(StringValue(code)) && !IsBlank(code)
    ensures Hashing.HashKey(md5, CastValue(render), row, BusinessKeyColumns) == Success(md5(code))
  {
    var cast := CastValue(render);
    TrimEmptyIffBlank(code);
    assert cast(StringValue(code)) == code;
    assert !Hashing.IsEmpty(cast, row["IATA_CODE"]);
    Hashing.SingleKeyAsIs(md5, cast, row, "IATA_CODE", StringValue(code));
  }

  /** `regexp_extract(input_file_name(), "[^/]+$", 0)`: the longest tail of the path
      without a `/`, which is "" when the path ends in `/` (the pattern does not match). */
  function OriginalFileName(path: string): (r: string)
    ensures '/' !in r
    ensures |r| <= |path| && r == path[|path| - |r|..]
    ensures |r| == |path| || path[|path| - |r| - 1] == '/'
    decreases |path|
  {
    if |path| == 0 || path[|path| - 1] == '/' then ""
    else OriginalFileName(path[..|path| - 1]) + [path[|path| - 1]]
  }

  /** For an input-file string `folder/name` whose `name` has no `/`, the file name is
      `name`, whatever the folder. */
  lemma FileNameOfJoinedPath(folder: string, name: string)
    requires '/' !in name
    ensures OriginalFileName(folder + "/" + name) == name
  {
    var path := folder + "/" + name;
    assert path[|path| - |name|..] == name;
    assert path[|path| - |name| - 1] == '/';
    assert |OriginalFileName(path)| == |name|;
  }

  /** The lineage columns added to every row; `RECORD_ID` is not modelled. */
  datatype Metadata = Metadata(filePath: string, originalFileName: string, rsrc: string, loadType: string)

  /** `add_metadata_columns` for a row read from `inputFile`. */
  function AddMetadata(landingPath: string, inputFile: string): Metadata {
    Metadata(landingPath, OriginalFileName(inputFile), DataSource, DeliveryMode)
  }

  /** A row whose input-file string is `folder/name`, with no `/` in `name`, records the
      landing path it was loaded from, the bare file name `name`, and the instance's fixed
      source and delivery mode. */
  lemma MetadataOfJoinedPath(landingPath: string, folder: string, name: string)
    requires '/' !in name
    ensures AddMetadata(landingPath, folder + "/" + name) == Metadata(landingPath, name, "CSV", "FULL")
  {
    FileNameOfJoinedPath(folder, name);
  }

  /** The steps that change the bronze table. */
  datatype Action = TruncateBronze(path: string) | WriteBronze(path: string, files: seq<string>)

  /** What a run shows and does. `reportedCount` is the file count printed after the
      selection (`None` when listing raised first); it is printed before the empty-selection
      check, so a failing run reports 0. The run itself returns nothing: `outcome` only
      says whether it raised. `actions` are the bronze-table steps taken, in order. */
  datatype Run = Run(reportedCount: Option<nat>, outcome: Result<(), Error>, actions: seq<Action>)

  /** `process_landing_to_bronze`, reduced to the decisions this model covers: list and
      select the files, report their count, raise if there are none, otherwise truncate
      and then write. */
  function Process(fs: FileDiscovery.FileSystem, landingPath: string, bronzePath: string): (run: Run)
    ensures run.outcome.Failure? <==> run.actions == []
    ensures FileDiscovery.CsvFiles(fs, landingPath).Success? ==>
      run.reportedCount == Some(|FileDiscovery.CsvFiles(fs, landingPath).value|)
    ensures FileDiscovery.CsvFiles(fs, landingPath) == Success([]) ==>
      run == Run(Some(0), Failure(NoCsvFiles(InstanceName)), [])
    ensures FileDiscovery.CsvFiles(fs, landingPath).Failure? ==>
      run == Run(None, Failure(FileDiscovery.CsvFiles(fs, landingPath).error), [])
    ensures FileDiscovery.CsvFiles(fs, landingPath).Success? && |FileDiscovery.CsvFiles(fs, landingPath).value| > 0 ==>
      run.outcome.Success?
    ensures run.outcome.Success? ==>
      && FileDiscovery.CsvFiles(fs, landingPath).Success?
      && |FileDiscovery.CsvFiles(fs, landingPath).value| > 0
      && run.actions == [TruncateBronze(bronzePath), WriteBronze(bronzePath, FileDiscovery.CsvFiles(fs, landingPath).value)]
  {
    match FileDiscovery.LoadCsvFiles(fs, landingPath)
    case Failure(e) => Run(None, Failure(e), [])
    case Success(loaded) =>
      match loaded.files
      case None => Run(Some(loaded.count), Failure(NoCsvFiles(InstanceName)), [])
      case Some(files) => Run(Some(loaded.count), Success(()), [TruncateBronze(bronzePath), WriteBronze(bronzePath, files)])
  }
}

=== FILE: spark_sql.dfy ===
/** The Spark SQL functions the hash expressions are built from, on nullable values. */
module SparkSql {
  import opened Wrappers
  import opened Strings

  /** `cast(v as string)`: NULL stays NULL, any other value goes through the engine's
      string rendering `cast`, which the model leaves abstract. */
  function CastToString<V>(cast: V -> string, v: Option<V>): Option<string> {
    match v
    case None => None
    case Some(x) => Some(cast(x))
  }

  /** The non-null arguments, in order. */
  function NonNull(parts: seq<Option<string>>): (r: seq<string>)
    ensures |r| <= |parts|
    ensures forall x :: x in r <==> Some(x) in parts
    decreases |parts|
  {
    if |parts| == 0 then []
    else
      var rest := NonNull(parts[1..]);
      assert parts == [parts[0]] + parts[1..];
      match parts[0]
      case None => rest
      case Some(x) => [x] + rest
  }

  /** `concat_ws(sep, parts...)`: the non-null arguments joined with `sep`; NULL
      arguments are skipped, so the result is never NULL. */
  function ConcatWs(sep: string, parts: seq<Option<string>>): string {
    Join(sep, NonNull(parts))
  }

  predicate AllPresent(parts: seq<Option<string>>) {
    forall i :: 0 <= i < |parts| ==> parts[i].Some?
  }

  function Values(parts: seq<Option<string>>): (r: seq<string>)
    requires AllPresent(parts)
  {
    seq(|parts|, i requires 0 <= i < |parts| && AllPresent(parts) => parts[i].value)
  }

  /** Without NULL arguments nothing is skipped: every argument appears, in order. */
  lemma {:induction false} NonNullAllPresent(parts: seq<Option<string>>)
    requires AllPresent(parts)
    ensures NonNull(parts) == Values(parts)
    decreases |parts|
  {
    if |parts| > 0 {
      NonNullAllPresent(parts[1..]);
      assert Values(parts) == [parts[0].value] + Values(parts[1..]);
    }
  }

  lemma {:induction false} NonNullAllNull(parts: seq<Option<string>>)
    requires forall i :: 0 <= i < |parts| ==> parts[i].None?
    ensures NonNull(parts) == []
    decreases |parts|
  {
    if |parts| > 0 {
      NonNullAllNull(parts[1..]);
    }
  }

  lemma {:induction false} NonNullSkipsNull(before: seq<Option<string>>, after: seq<Option<string>>)
    ensures NonNull(before + [None] + after) == NonNull(before + after)
    decreases |before|
  {
    if |before| == 0 {
      assert (before + [None] + after)[1..] == after;
      assert before + after == after;
    } else {
      NonNullSkipsNull(before[1..], after);
      assert (before + [None] + after)[1..] == before[1..] + [None] + after;
      assert (before + after)[1..] == before[1..] + after;
    }
  }

  /** NULL arguments leave no trace: inserting one anywhere leaves the result unchanged. */
  lemma ConcatWsSkipsNull(sep: string, before: seq<Option<string>>, after: seq<Option<string>>)
    ensures ConcatWs(sep, before + [None] + after) == ConcatWs(sep, before + after)
  {
    NonNullSkipsNull(before, after);
  }
}

=== FILE: strings.dfy ===
/** The string operations of Python and Spark that the script relies on. */
module Strings {

  /** Python's `str.endswith`. */
  predicate EndsWith(s: string, suffix: string) {
    |suffix| <= |s| && s[|s| - |suffix|..] == suffix
  }

  predicate IsAsciiUpper(c: char) {
    'A' <= c <= 'Z'
  }

  function LowerChar(c: char): char {
    if IsAsciiUpper(c) then (c as int + 32) as char else c
  }

  /** Python's `str.lower`, for the ASCII letters. */
  function Lower(s: string): string {
    seq(|s|, i requires 0 <= i < |s| => LowerChar(s[i]))
  }

  /** Letters agree up to ASCII case. */
  predicate SameLetterIgnoringCase(c: char, lower: char)
    requires 'a' <= lower <= 'z'
  {
    c == lower || c as int == lower as int - 32
  }

  /** A name ends in `.csv` once lowered exactly when its last four characters are
      a dot followed by `c`, `s`, `v` in either case. */
  lemma LowerEndsWithCsv(name: string)
    ensures EndsWith(Lower(name), ".csv") <==>
      && |name| >= 4
      && name[|name| - 4] == '.'
      && SameLetterIgnoringCase(name[|name| - 3], 'c')
      && SameLetterIgnoringCase(name[|name| - 2], 's')
      && SameLetterIgnoringCase(name[|name| - 1], 'v')
  {
    var n := |name|;
    if |name| >= 4 {
      var tail := Lower(name)[n - 4..];
      if tail == ".csv" {
        assert tail[0] == LowerChar(name[n - 4]);
        assert tail[1] == LowerChar(name[n - 3]);
        assert tail[2] == LowerChar(name[n - 2]);
        assert tail[3] == LowerChar(name[n - 1]);
      }
    }
  }

  /** Spark's `trim`: leading spaces removed. */
  function TrimLeading(s: string): (r: string)
    ensures |r| <= |s| && r == s[|s| - |r|..]
    ensures forall i :: 0 <= i < |s| - |r| ==> s[i] == ' '
    ensures r == "" || r[0] != ' '
  {
    if |s| > 0 && s[0] == ' ' then TrimLeading(s[1..]) else s
  }

  /** Spark's `trim`: trailing spaces removed. */
  function TrimTrailing(s: string): (r: string)
    ensures |r| <= |s| && r == s[..|r|]
    ensures forall i :: |r| <= i < |s| ==> s[i] == ' '
    ensures r == "" || r[|r| - 1] != ' '
  {
    if |s| > 0 && s[|s| - 1] == ' ' then TrimTrailing(s[..|s| - 1]) else s
  }

  /** Spark's `trim(str)`: leading and trailing space characters removed, nothing else. */
  function Trim(s: string): string {
    TrimTrailing(TrimLeading(s))
  }

  predicate IsBlank(s: string) {
    forall i :: 0 <= i < |s| ==> s[i] == ' '
  }

  /** A string trims to "" exactly when it consists of spaces only. */
  lemma TrimEmptyIffBlank(s: string)
    ensures Trim(s) == "" <==> IsBlank(s)
  {
    var l := TrimLeading(s);
    if Trim(s) == "" {
      assert l == "";
    }
  }

  /** Python's `str.rstrip(c)` for a single character: every trailing `c` removed. */
  function RStrip(s: string, c: char): (r: string)
    ensures |r| <= |s| && r == s[..|r|]
    ensures forall i :: |r| <= i < |s| ==> s[i] == c
    ensures r == "" || r[|r| - 1] != c
  {
    if |s| > 0 && s[|s| - 1] == c then RStrip(s[..|s| - 1], c) else s
  }

  /** Stripping is idempotent, and one more trailing `c` makes no difference. */
  lemma RStripAbsorbs(s: string, c: char)
    ensures RStrip(RStrip(s, c), c) == RStrip(s, c)
    ensures RStrip(s + [c], c) == RStrip(s, c)
  {
    assert (s + [c])[..|s|] == s;
  }

  /** `sep.join(xs)`, which is also what Spark's `concat_ws` builds from its non-null
      arguments. */
  function Join(sep: string, xs: seq<string>): string
    decreases |xs|
  {
    if |xs| == 0 then ""
    else if |xs| == 1 then xs[0]
    else xs[0] + sep + Join(sep, xs[1..])
  }

  /** Python's `s.split(c)` for a single separator character: the pieces between
      consecutive occurrences of `c`, never an empty list. */
  function Split(s: string, c: char): (r: seq<string>)
    ensures |r| > 0
    decreases |s|
  {
    if |s| == 0 then [""]
    else
      var rest := Split(s[1..], c);
      if s[0] == c then [""] + rest else [[s[0]] + rest[0]] + rest[1..]
  }

  /** `n` copies of `x`. */
  function Repeat(x: string, n: nat): (r: seq<string>)
    ensures |r| == n && forall i :: 0 <= i < n ==> r[i] == x
  {
    if n == 0 then [] else [x] + Repeat(x, n - 1)
  }

  lemma {:induction false} SplitWithoutSeparator(s: string, c: char)
    requires c !in s
    ensures Split(s, c) == [s]
    decreases |s|
  {
    if |s| > 0 {
      SplitWithoutSeparator(s[1..], c);
      assert [s[0]] + s[1..] == s;
    }
  }

  lemma {:induction false} SplitAtFirstSeparator(x: string, c: char, y: string)
    requires c !in x
    ensures Split(x + [c] + y, c) == [x] + Split(y, c)
    decreases |x|
  {
    var s := x + [c] + y;
    if |x| == 0 {
      assert s[1..] == y;
    } else {
      assert s[1..] == x[1..] + [c] + y;
      SplitAtFirstSeparator(x[1..], c, y);
      assert [x[0]] + x[1..] == x;
    }
  }

  /** Splitting undoes joining when no piece contains the separator. */
  lemma {:induction false} SplitJoin(xs: seq<string>, c: char)
    requires |xs| > 0
    requires forall i :: 0 <= i < |xs| ==> c !in xs[i]
    ensures Split(Join([c], xs), c) == xs
    decreases |xs|
  {
    if |xs| == 1 {
      SplitWithoutSeparator(xs[0], c);
    } else {
      SplitJoin(xs[1..], c);
      SplitAtFirstSeparator(xs[0], c, Join([c], xs[1..]));
      assert xs[0] + [c] + Join([c], xs[1..]) == Join([c], xs);
      assert [xs[0]] + xs[1..] == xs;
    }
  }

  /** Joining undoes splitting, for every string. */
  lemma {:induction false} JoinSplit(s: string, c: char)
    ensures Join([c], Split(s, c)) == s
    decreases |s|
  {
    if |s| > 0 {
      var rest := Split(s[1..], c);
      JoinSplit(s[1..], c);
      if s[0] == c {
        assert Join([c], [""] + rest) == "" + [c] + Join([c], rest);
      } else {
        var r := [[s[0]] + rest[0]] + rest[1..];
        if |rest| == 1 {
          assert Join([c], r) == [s[0]] + rest[0];
        } else {
          assert r[1..] == rest[1..];
          assert Join([c], rest) == rest[0] + [c] + Join([c], rest[1..]);
          assert Join([c], r) == [s[0]] + rest[0] + [c] + Join([c], rest[1..]);
        }
        assert [s[0]] + s[1..] == s;
      }
    }
  }

  /** A join starts with its first piece. */
  lemma {:induction false} JoinStartsWithFirst(sep: string, xs: seq<string>)
    requires |xs| > 0
    ensures |xs[0]| <= |Join(sep, xs)| && Join(sep, xs)[..|xs[0]|] == xs[0]
  {
    if |xs| > 1 {
      assert (xs[0] + sep + Join(sep, xs[1..]))[..|xs[0]|] == xs[0];
    }
  }

  /** Every character of a join comes from a piece or from the separator. */
  lemma {:induction false} JoinCharacters(sep: string, xs: seq<string>, allowed: set<char>)
    requires forall k :: 0 <= k < |sep| ==> sep[k] in allowed
    requires forall i, k :: 0 <= i < |xs| && 0 <= k < |xs[i]| ==> xs[i][k] in allowed
    ensures forall k :: 0 <= k < |Join(sep, xs)| ==> Join(sep, xs)[k] in allowed
    decreases |xs|
  {
    if |xs| > 1 {
      JoinCharacters(sep, xs[1..], allowed);
      var tail := Join(sep, xs[1..]);
      var j := xs[0] + sep + tail;
      forall k | 0 <= k < |j|
        ensures j[k] in allowed
      {
        if k < |xs[0]| {
        } else if k < |xs[0]| + |sep| {
          assert j[k] == sep[k - |xs[0]|];
        } else {
          assert j[k] == tail[k - |xs[0]| - |sep|];
        }
      }
    }
  }
}

=== FILE: wrappers.dfy ===
/** Optional values (SQL NULL, Python `None`) and results that carry an error. */
module Wrappers {

  /** `None` stands for Python's `None` and for a SQL NULL cell. */
  datatype Option<+T> = None | Some(value: T)

  /** The outcome of a step that can raise. */
  datatype Result<+T, +E> = Success(value: T) | Failure(error: E)
}
